=== FILE: README.md ===
# AnyBarcode label layout, modelled in Dafny

This project models the label writer of AnyBarcode (`LabelWriter`): the part
that, after the bars of a barcode have been rendered, overlays the
human-readable label. For each of four layouts — Generic, ITF-14, EAN-13 and
UPC-A — it computes the background fills, the separator line, the text
origins and alignments, and which piece of the data is drawn at each origin.
It also models the linear font-size scan (`GetFontsize`) and the band-height
probe (`GetFontDimensions`), which measures the fixed string
`ABCDEFGHIJKLMNOPQRSTUVWXYZ0123456789` so that the band height depends on the
font alone, never on the label text.

A layout is a pure function returning the sequence of draw commands
(`FillRect`, `DrawLine`, `DrawText`) it would apply to the image, in order.
Every layout wraps its failures in one exception, `BarcodeException` with the
message "Error occurred writing the label!"; the model returns
`Failure(BarcodeException(message, cause, drawn))`, where `drawn` lists the
commands already applied to the image before the failure (they are not
undone).

Modules:

- `Wrappers` — `Option` and `Result`.
- `DotNet` — the .NET semantics the code relies on: truncating `int` division
  and remainder (`Div`, `Rem`), the truncating `(int)` cast of a float
  (`Trunc`), and `String.Substring` with its out-of-range failure.
- `Drawing` — points, rectangles, fonts, draw commands, and the text
  measurement as a parameter `measure: (Font, string) -> Metrics`. Fonts are
  named by how the writer derives them: the configured `LabelFont`, the
  family at a size (`Sized`), and the small font derived from a size
  (`SmallOf`). `FontDimensions` is `GetFontDimensions`.
- `Barcodes` — the barcode descriptor, the image size, label positions and
  alignments (both stored as integers in the source, so an unnamed code is
  possible), and the exception.
- `FontFit` — `GetFontsize` as a reference function (`FitSize`) and as the
  loop the source runs (`GetFontsize`), proved equal.
- `BarGeometry` — bar width, leftover pixels and the alignment shift shared
  by EAN-13 and UPC-A.
- `Generic`, `Itf14`, `Ean13`, `UpcA` — the four layouts.

Every layout is a function of its inputs and the measurement alone, so
drawing the same barcode twice on identical images gives identical commands.

Measurements are real numbers, so every `(int)` cast of a measured height is
modelled exactly by `Trunc`; the lemmas that state the integer geometry take a
whole-pixel band height as a hypothesis.

Quirks of `LabelWriter` that the model keeps:

- `GetFontsize` returns the default size 10 (times 0.9) when no size from 1 to
  100 overflows; it returns 0 when size 1 already overflows.
- The Generic text origin is `(image width, band height)` for every position;
  the per-position x coordinate is computed and discarded (and for TopLeft it
  is the image width, not 0).
- The ITF-14 fill starts two pixels below the top of the band, so it extends
  two pixels past the bottom edge of the image.
- EAN-13 and UPC-A always draw the data, never the alternate label; they
  succeed on any data of at least 7 and 11 characters respectively.
- The UPC-A fitting width is nine tenths of the whole-module width,
  truncated; the EAN-13 fitting width is the whole-module width itself.
- The small font is `0.3 × DotsPerPointAt96Dpi` times the label font's size,
  because the dots-per-point factor is applied twice (LabelWriter.cs:227, 319).

## Model

| member | source | states |
|---|---|---|
| DotNet.Div | AnyBarcode/AnyBarcode/LabelWriter.cs:174 | C# integer division: agrees with floor division for non-negative operands, and otherwise leaves a remainder with the dividend's sign, smaller in size than the divisor |
| DotNet.Rem | AnyBarcode/AnyBarcode/LabelWriter.cs:176 | C# remainder: non-negative and below the divisor's magnitude for a non-negative dividend, non-positive and above minus that magnitude for a negative one, and Dafny's `%` for non-negative operands |
| DotNet.Trunc | AnyBarcode/AnyBarcode/LabelWriter.cs:37 | the `(int)` cast of a measured value lies within one unit of it, toward zero |
| DotNet.Substring | AnyBarcode/AnyBarcode/LabelWriter.cs:236-239 | `Substring(start, length)` succeeds exactly when the range lies inside the string, and then yields exactly those characters |
| DotNet.SubstringFrom | AnyBarcode/AnyBarcode/LabelWriter.cs:241 | `Substring(start)` succeeds exactly when `0 <= start <= length`, and the prefix before `start` followed by it is the whole string |
| FontFit.FirstOverflow | AnyBarcode/AnyBarcode/LabelWriter.cs:364-379 | the scan from a size stops at a size that overflows the budget, and every size it passed fits |
| FontFit.FitSize | AnyBarcode/AnyBarcode/LabelWriter.cs:357-383 | empty label gives 10; otherwise, if some size in 1..100 overflows, the result is one below the first that does and every size up to it fits; if none overflows, 10 |
| FontFit.GetFontsize | AnyBarcode/AnyBarcode/LabelWriter.cs:357-383 | the loop returns the fitted size times 0.9, takes no measurement for an empty label, and at most 100 otherwise: one per size up to the first overflow |
| FontFit.FitIsTight | AnyBarcode/AnyBarcode/LabelWriter.cs:374-377 | when some size overflows, the chosen size is in 0..99, fits (when it is a probe size) and the next size overflows |
| FontFit.FitEdges | AnyBarcode/AnyBarcode/LabelWriter.cs:360-382 | a label overflowing at size 1 gets size 0; a label fitting at every size up to 100 gets 10, not 100 |
| BarGeometry.BarWidth | AnyBarcode/AnyBarcode/LabelWriter.cs:174 | for a non-negative width, the bar width is the largest whole number of pixels per module that fits |
| BarGeometry.Leftover | AnyBarcode/AnyBarcode/LabelWriter.cs:194 | the leftover and the whole modules recompose the width, and the leftover is below the module count |
| BarGeometry.WholeModuleWidth | AnyBarcode/AnyBarcode/LabelWriter.cs:176 | the desired size `Width - Width % len` is exactly bar width times module count, within one module of the width |
| BarGeometry.Shift | AnyBarcode/AnyBarcode/LabelWriter.cs:188-200 | for a non-negative width, `0 <= shift <= Width % len < len` |
| BarGeometry.ShiftPlacesField | AnyBarcode/AnyBarcode/LabelWriter.cs:188-200 | the shifted bar field fits in the width: flush left for Left, flush right for Right, centred to within one pixel otherwise |
| Drawing.FontDimensions | AnyBarcode/AnyBarcode/LabelWriter.cs:348-355 | the band metrics of a font are the measurement of the fixed reference string in that font; no label text enters, which `Generic.GenericBandIgnoresText` and `Itf14.Itf14BandIgnoresText` state for the layouts |
| Drawing.ReferenceAlphabetIsCapitalsAndDigits | AnyBarcode/AnyBarcode/LabelWriter.cs:354 | the reference string holds exactly the capital letters A-Z and the digits 0-9 |
| Generic.LabelGeneric | AnyBarcode/AnyBarcode/LabelWriter.cs:77-162 | one full-width band fill then one text; bottom positions (and only they) put the band at `H - band` and align the text bottom, others at 0 and top; Center/Right positions and only they center/right-align; the origin is `(W, band)` always; the text is the alternate label when set, else the data |
| Generic.GenericBandTouchesEdge | AnyBarcode/AnyBarcode/LabelWriter.cs:99-148 | with a whole-pixel band, a bottom band ends at the image's bottom edge and a top band starts at its top edge, spanning the full width |
| Generic.GenericBandIgnoresText | AnyBarcode/AnyBarcode/LabelWriter.cs:348-355 | the band fill is the same whatever the data or alternate label, because the band height comes from the reference alphabet |
| Generic.GenericOriginFixed | AnyBarcode/AnyBarcode/LabelWriter.cs:152-153 | the text origin is the same for every position and every label |
| Itf14.LabelItf14 | AnyBarcode/AnyBarcode/LabelWriter.cs:22-70 | for any (fractional) band height: a full-width fill band-high at `(int)(H - (band - 2))`, the alternate label or data centred at `((int)(W/2), H - (int)band + 1)`, then a horizontal full-width separator at `H - (int)band - 2` of thickness `H/16` |
| Itf14.Itf14Stack | AnyBarcode/AnyBarcode/LabelWriter.cs:37-61 | only for a whole-pixel band: the fill spans `H - band + 2` to `H + 2`, the text origin is one pixel above it and the separator four, and the text is centred to within half a pixel (with a fractional band the fill can start at the text's row) |
| Itf14.Itf14BandIgnoresText | AnyBarcode/AnyBarcode/LabelWriter.cs:27-61 | the fill and the separator are the same whatever the data or alternate label, because the band height comes from the reference string |
| Ean13.LabelEan13 | AnyBarcode/AnyBarcode/LabelWriter.cs:169-249 | succeeds iff there is a module and the data has at least 7 characters; no module throws before drawing; short data throws after the two fills (and the lead digit when there is one); success draws two fills and three texts of length 1, 6 and the rest, which concatenate to the data |
| Ean13.Ean13Font | AnyBarcode/AnyBarcode/LabelWriter.cs:176-178 | the label font is the family at 0.9 times the size fitted for the data into a width of bar width times module count and the image height |
| Ean13.Ean13Columns | AnyBarcode/AnyBarcode/LabelWriter.cs:204-212 | the halves start 3 and 50 modules after the shift, are 42 modules wide with the 5-module guard between them |
| Ean13.Ean13FillsInside | AnyBarcode/AnyBarcode/LabelWriter.cs:206-224 | for a non-negative width with at least 92 modules (EAN-13 has 95) both fills lie inside the barcode width |
| Ean13.Ean13LeftToRight | AnyBarcode/AnyBarcode/LabelWriter.cs:235-240 | with at least one pixel per module the lead digit, left group and right group origins are strictly increasing |
| Ean13.Ean13Drawn | AnyBarcode/AnyBarcode/LabelWriter.cs:222-241 | the exact commands of a successful layout: fills behind both halves at the band top; character 0 in the small font at the lead block, at `(int)(H - 0.9 * small band)`; characters 1-6 at the left half; characters from 7 onward one module before the right half; all text left- and top-aligned |
| Ean13.Ean13Example | AnyBarcode/AnyBarcode/LabelWriter.cs:206-212 | width 350 with 10 modules, centred: bar width 35, shift 0, blocks at -35, 105 and 1750, halves 1470 wide |
| UpcA.LabelUpcA | AnyBarcode/AnyBarcode/LabelWriter.cs:256-346 | succeeds iff there is a module and the data has at least 11 characters; no module throws before drawing; short data throws after 2, 3 or 4 draws depending on how many pieces could be cut; success draws two fills and four texts of length 1, 5, 5 and the rest, which concatenate to the data |
| UpcA.UpcAFont | AnyBarcode/AnyBarcode/LabelWriter.cs:263-266 | the label font is the family at 0.9 times the size fitted for the data into a width of nine tenths of bar width times module count, truncated toward zero (floor division for a non-negative width), and the image height |
| UpcA.NineTenthsTruncates | AnyBarcode/AnyBarcode/LabelWriter.cs:263 | `(int)(w * 0.9)` is C# integer `9 * w / 10`, truncated toward zero for negative `w` too |
| UpcA.UpcAColumns | AnyBarcode/AnyBarcode/LabelWriter.cs:297-304 | the shift carries the +3 bias; the halves start 11 and 50 modules after it, are 34 modules wide with the 5-module guard between them, and the last digit sits at 92 modules less half a module |
| UpcA.UpcAFillsInside | AnyBarcode/AnyBarcode/LabelWriter.cs:297-316 | with at least 87 modules and one pixel per module, both fills lie inside the barcode width |
| UpcA.UpcALeftToRight | AnyBarcode/AnyBarcode/LabelWriter.cs:329-336 | with at least one pixel per module the four text origins, nudges included, are strictly increasing |
| UpcA.HalfTruncates | AnyBarcode/AnyBarcode/LabelWriter.cs:261 | `(int)(barWidth * 0.5)` is C# integer halving |
| UpcA.UpcADrawn | AnyBarcode/AnyBarcode/LabelWriter.cs:314-338 | the exact commands of a successful layout: fills behind both halves, character 0 and the characters from 11 onward in the small font at `H` less the small font's band height, digits 1-5 and 6-10 in the label font one module before each half plus 5 pixels |

## Left out

- The rasterizer and text shaper (`Mutate`, `Fill`, `DrawText`, `DrawLines`, `TextMeasurer.Measure`, `Font` construction): foreign code. Measurement is the `measure` parameter, drawing is the returned command list.
- Colours, antialiasing flags and the text pens: they do not affect geometry. Fills use the background colour, lines and text the foreground colour.
- The resolution and the font style: the band height and the fitted size depend on them. The model is sound because `measure` stands for measurement at the barcode's horizontal resolution, and `Sized` and `SmallOf` stand for fonts in the regular style, as every font the writer builds is.
- The dots-per-point factor (`DotsPerPointAt96Dpi`) and the small-font factor 0.3: font sizes are kept as the pre-factor size in `Sized`, and the small font as `SmallOf` of the label font's size.
- Floating-point rounding: the `0.9f` products, the block offsets and the line thickness `H/16f` are computed exactly over the reals; the `(int)` casts are modelled as truncation. Casts of values outside the `int` range are not modelled.
- A failing measurement (for example an unresolvable font): the measurement is total, so the Generic and ITF-14 layouts return commands rather than an outcome; their only failure source in the source is the canvas itself.
- Strings are sequences of Unicode scalar values, while .NET's `Length` and `Substring` count UTF-16 code units: on data outside the Basic Multilingual Plane the model's lengths and cuts differ from the code's (a character above U+FFFF is one character here and two code units there), and data holding a lone surrogate cannot be represented. The two agree on Basic Multilingual Plane text, such as the digit strings EAN-13 and UPC-A carry.
- A null `Data` or a null `EncodedValue`: both are strings here. In the code a null `EncodedValue` throws at the bar-width division of EAN-13 and UPC-A, which surfaces as the wrapped exception; the model cannot represent it. A null `AlternateLabel` is `None`.
- The choice of layout per barcode type and the encoders that produce the encoded value: `Barcode.cs` and the symbology encoders are not part of this model; the encoded value is used only for its length.
- `ResourceLoader.cs`, `SaveData.cs`, `BarcodeException.cs`, `IBarcode.cs`, `Barcode.Utf8StringWriter.cs`, `Symbologies/Blank.cs` and the tests: resource I/O, property bags and type declarations with no layout logic.
- Ean13.LabelEan13: on failure the contract gives how many commands were already drawn and that the first two are fills, not their coordinates (those follow from `Ean13Drawn`'s definitions but are not restated for the failure path).
- UpcA.LabelUpcA: on failure the contract gives how many commands were already drawn and that the first two are fills, not their coordinates.

=== FILE: barcodes.dfy ===
/**
 * The barcode descriptor as the label writer reads it, the image it draws
 * on, and the single error kind every layout reports.
 */
module Barcodes {
  import opened Wrappers
  import opened Drawing

  /**
   * Where a generic label goes. The value is stored as an integer, so a code
   * outside the six named positions can reach the layout.
   */
  datatype LabelPosition =
    | TopLeft | TopCenter | TopRight
    | BottomLeft | BottomCenter | BottomRight
    | UnnamedPosition(code: int)

  /** Horizontal alignment of the bars in the image; also stored as an integer. */
  datatype AlignmentPosition = Left | Center | Right | UnnamedAlignment(code: int)

  /**
   * The fields of a barcode the label writer uses. The encoded module string
   * matters only through its length; `width` is the barcode's declared width,
   * which the EAN-13 and UPC-A layouts use instead of the image's.
   */
  datatype Barcode = Barcode(
    data: string,
    encodedValue: string,
    alternateLabel: Option<string>,
    width: int,
    labelPosition: LabelPosition,
    alignment: AlignmentPosition)

  /** The image being labelled: only its size is read. */
  datatype Image = Image(width: int, height: int)

  /** The message of every exception a layout throws. */
  const ErrorMessage: string := "Error occurred writing the label!"

  /** What went wrong inside a layout before it was wrapped. */
  datatype Cause =
    | DivideByZero          // the encoded value is empty, so there are no modules
    | SubstringOutOfRange   // the data is too short for a digit group

  /**
   * The exception a layout throws. `drawn` is what had already been applied
   * to the image when the failure happened: partial draws are not undone.
   */
  datatype BarcodeException = BarcodeException(message: string, cause: Cause, drawn: seq<DrawCmd>)

  /** A layout either returns every command it drew, or throws. */
  type Outcome = Result<seq<DrawCmd>, BarcodeException>

  function Throw(cause: Cause, drawn: seq<DrawCmd>): (r: Outcome)
  {
    Failure(BarcodeException(ErrorMessage, cause, drawn))
  }

  /** The text of a single-label layout: the alternate label when set, else the data. */
  function LabelText(b: Barcode): (t: string)
  {
    match b.alternateLabel
    case Some(alt) => alt
    case None => b.data
  }
}

=== FILE: bargeometry.dfy ===
/**
 * Module arithmetic shared by the EAN-13 and UPC-A layouts: the width of one
 * module in pixels, the pixels left over when the barcode width is not a
 * whole number of modules, and the alignment shift that places the
 * whole-module bar field inside the barcode width.
 */
module BarGeometry {
  import opened DotNet
  import opened Barcodes

  /** Pixels per module: the barcode width over the module count, truncated. */
  function BarWidth(width: int, modules: int): (bw: int)
    requires 0 < modules
    ensures 0 <= width ==> 0 <= bw && bw * modules <= width < bw * modules + modules
  {
    var q := Div(width, modules);
    assert 0 <= width ==> q == width / modules && 0 <= width - q * modules < modules;
    q
  }

  /** The pixels that remain once every module has its whole bar width. */
  function Leftover(width: int, modules: int): (r: int)
    requires 0 < modules
    ensures 0 <= width ==> 0 <= r < modules
    ensures BarWidth(width, modules) * modules + r == width
  {
    Rem(width, modules)
  }

  /** The width the whole modules occupy: the barcode width less the leftover. */
  function WholeModuleWidth(width: int, modules: int): (w: int)
    requires 0 < modules
    ensures w == BarWidth(width, modules) * modules
    ensures 0 <= width ==> width - modules < w <= width
  {
    width - Leftover(width, modules)
  }

  /**
   * The alignment shift: none for Left, the whole leftover for Right, and
   * half of it (truncated) for Center and for any unnamed alignment value.
   */
  function Shift(align: AlignmentPosition, width: int, modules: int): (s: int)
    requires 0 < modules
    ensures 0 <= width ==> 0 <= s <= Leftover(width, modules) < modules
  {
    match align
    case Left => 0
    case Right => Leftover(width, modules)
    case _ => Div(Leftover(width, modules), 2)
  }

  /**
   * The shift places the bar field inside the barcode width: flush left for
   * Left, flush right for Right, and otherwise with the right margin equal to
   * the left one or one pixel wider.
   */
  lemma ShiftPlacesField(align: AlignmentPosition, width: int, modules: int)
    requires 0 < modules && 0 <= width
    ensures var s := Shift(align, width, modules);
      var right := width - (s + WholeModuleWidth(width, modules));
      && 0 <= s && 0 <= right
      && (align == Left ==> s == 0)
      && (align == Right ==> right == 0)
      && (align != Left && align != Right ==> right == s || right == s + 1)
  {
  }

  /** Scaling by a non-negative factor keeps order. */
  lemma MonotoneProduct(a: int, b: int, c: int)
    requires a <= b && 0 <= c
    ensures a * c <= b * c
  {
  }
}

=== FILE: dotnet.dfy ===
/**
 * The few .NET semantics the label writer relies on, written out because
 * Dafny's own operators differ: C# `int` division truncates toward zero,
 * a `(int)` cast of a floating-point value truncates toward zero, and
 * `String.Substring` throws `ArgumentOutOfRangeException` on a bad range.
 */
module DotNet {
  import opened Wrappers

  function Abs(a: int): (r: int)
    ensures 0 <= r
    ensures r == a || r == -a
  {
    if a < 0 then -a else a
  }

  /** C# `a / b` on `int`: the quotient truncated toward zero. */
  function Div(a: int, b: int): (q: int)
    requires b != 0
    ensures 0 <= a && 0 < b ==> q == a / b
    ensures 0 <= a ==> 0 <= a - q * b < Abs(b)
    ensures a < 0 ==> -Abs(b) < a - q * b <= 0
  {
    var n := Abs(a);
    var d := Abs(b);
    var q0 := n / d;
    EuclidNonNegative(n, d);
    NegateProduct(q0, d);
    if (a < 0) == (b < 0) then q0 else -q0
  }

  /** Dafny's division of a natural number by a positive one leaves a remainder below the divisor. */
  lemma EuclidNonNegative(a: int, b: int)
    requires 0 <= a && 0 < b
    ensures 0 <= a - (a / b) * b < b
  {
  }

  /** Negation moves freely through a product. */
  lemma NegateProduct(x: int, y: int)
    ensures (-x) * y == -(x * y) == x * (-y)
    ensures (-x) * (-y) == x * y
  {
  }

  /** C# `a % b` on `int`: the remainder takes the sign of the dividend. */
  function Rem(a: int, b: int): (r: int)
    requires b != 0
    ensures 0 <= a ==> 0 <= r < Abs(b)
    ensures a < 0 ==> -Abs(b) < r <= 0
    ensures 0 <= a && 0 < b ==> r == a % b
  {
    var q := Div(a, b);
    assert 0 <= a && 0 < b ==> a - q * b == a % b;
    a - q * b
  }

  /** A C# `(int)` cast of a floating-point value: truncation toward zero. */
  function Trunc(x: real): (n: int)
    ensures 0.0 <= x ==> n as real <= x < n as real + 1.0
    ensures x < 0.0 ==> n as real - 1.0 < x <= n as real
  {
    if 0.0 <= x then x.Floor else -((-x).Floor)
  }

  /** `s.Substring(start, length)`; `None` where .NET throws. */
  function Substring(s: string, start: int, length: int): (r: Option<string>)
    ensures r.Some? <==> 0 <= start && 0 <= length && start + length <= |s|
    ensures r.Some? ==> |r.value| == length
    ensures r.Some? ==> forall i :: 0 <= i < length ==> r.value[i] == s[start + i]
  {
    if 0 <= start && 0 <= length && start + length <= |s| then
      Some(s[start..start + length])
    else
      None
  }

  /** `s.Substring(start)`: the suffix from `start`; `None` where .NET throws. */
  function SubstringFrom(s: string, start: int): (r: Option<string>)
    ensures r.Some? <==> 0 <= start <= |s|
    ensures r.Some? ==> s[..start] + r.value == s
  {
    if 0 <= start <= |s| then Some(s[start..]) else None
  }

  /** Truncated division and remainder recompose the dividend. */
  lemma DivRem(a: int, b: int)
    requires b != 0
    ensures Div(a, b) * b + Rem(a, b) == a
  {
  }

  /** A cast of a whole number is exact. */
  lemma TruncWhole(n: int)
    ensures Trunc(n as real) == n
  {
  }
}

=== FILE: drawing.dfy ===
/**
 * The canvas vocabulary of the label writer: the draw commands it issues and
 * the text-measurement capability it consumes. The rasterizer and the text
 * shaper themselves are outside the model; a layout is the sequence of
 * commands it would apply to the image, in order.
 */
module Drawing {

  datatype Point = Point(x: int, y: int)

  /** An axis-aligned rectangle: top-left corner, width and height in pixels. */
  datatype Rect = Rect(x: int, y: int, width: int, height: int)

  /** Horizontal alignment of text relative to its origin. */
  datatype HAlign = HLeft | HCenter | HRight

  /** Vertical alignment of text relative to its origin. */
  datatype VAlign = VTop | VBottom

  /**
   * A font of the barcode's label family, identified by how the label writer
   * derives it. The dots-per-point factor the sizes are multiplied by is
   * left implicit.
   */
  datatype Font =
    | LabelFont               // the barcode's configured label font, unchanged
    | Sized(points: real)     // the label family in the regular style at `points`
                              // (times dots-per-point)
    | SmallOf(points: real)   // `Sized(points)` scaled by the small-font factor and by
                              // the dots-per-point factor a second time

  /** A measured bounding box. Measurements are fractional. */
  datatype Metrics = Metrics(width: real, height: real)

  /** The text shaper's measurement: any function of the font and the string. */
  type Measure = (Font, string) -> Metrics

  /**
   * One drawing primitive. Fills are painted in the barcode's background
   * colour without antialiasing; lines and text in its foreground colour.
   */
  datatype DrawCmd =
    | FillRect(rect: Rect)
    | DrawLine(from: Point, to: Point, thickness: real)
    | DrawText(origin: Point, hAlign: HAlign, vAlign: VAlign, font: Font, text: string)

  /** The fixed string whose measured height sizes every label band. */
  const ReferenceAlphabet: string := "ABCDEFGHIJKLMNOPQRSTUVWXYZ0123456789"

  /**
   * The band metrics of a font: the reference alphabet measured in it. No
   * label text enters, so a band depends on the font alone.
   */
  function FontDimensions(measure: Measure, font: Font): (m: Metrics)
    ensures m == measure(font, ReferenceAlphabet)
  {
    measure(font, ReferenceAlphabet)
  }

  /** The reference string holds exactly the capital letters and the decimal digits. */
  lemma ReferenceAlphabetIsCapitalsAndDigits()
    ensures forall c :: ('A' <= c <= 'Z' || '0' <= c <= '9') <==> c in ReferenceAlphabet
  {
  }
}

=== FILE: ean13.dfy ===
/**
 * The EAN-13 label. The leading digit is drawn in a small font to the left
 * of the bars; the two groups of six digits are drawn in the fitted label
 * font on background fills that cover the two 42-module data halves, which
 * are separated by the 5-module centre guard.
 */
module Ean13 {
  import opened Wrappers
  import opened DotNet
  import opened Drawing
  import opened Barcodes
  import opened FontFit
  import opened BarGeometry

  const LeadModules: int := 4     // lead block: where the first digit sits
  const HalfModules: int := 42    // each data half
  const GuardModules: int := 5    // centre guard between the halves
  const DataLength: int := 7      // digits needed before the last group can be cut

  /** The horizontal layout: bar width, shift and the three block starts. */
  datatype Blocks = Blocks(barWidth: int, shift: int, s1: int, s2: int, s3: int, halfWidth: int)

  function Ean13Blocks(width: int, modules: int, align: AlignmentPosition): (g: Blocks)
    requires 0 < modules
  {
    var bw := BarWidth(width, modules);
    var shift := Shift(align, width, modules);
    var s1 := shift - bw;
    var s2 := s1 + bw * LeadModules;
    var w2 := bw * HalfModules;
    Blocks(bw, shift, s1, s2, s2 + w2 + bw * GuardModules, w2)
  }

  /** The label font: the family at the fitted size for the data in the whole-module width. */
  function Ean13Font(measure: Measure, b: Barcode, img: Image): (f: Font)
    requires 0 < |b.encodedValue|
    ensures f == Sized(SafetyFactor * FitSize(measure, BarWidth(b.width, |b.encodedValue|) * |b.encodedValue|,
                                              img.height, b.data) as real)
  {
    var desired := WholeModuleWidth(b.width, |b.encodedValue|);
    Sized(SafetyFactor * FitSize(measure, desired, img.height, b.data) as real)
  }

  /**
   * The EAN-13 layout: two fills, then the lead digit, the left group and
   * the right group. It succeeds exactly when there is at least one module
   * and the data has at least seven characters; otherwise it throws after
   * the draws that precede the failing step.
   */
  function LabelEan13(measure: Measure, b: Barcode, img: Image): (r: Outcome)
    ensures r.Success? <==> 0 < |b.encodedValue| && DataLength <= |b.data|
    ensures r.Failure? ==> r.error.message == ErrorMessage
    ensures |b.encodedValue| == 0 ==> r.Failure? && r.error.cause == DivideByZero && r.error.drawn == []
    ensures 0 < |b.encodedValue| && |b.data| < DataLength ==>
      && r.Failure? && r.error.cause == SubstringOutOfRange
      && |r.error.drawn| == (if |b.data| == 0 then 2 else 3)
      && r.error.drawn[0].FillRect? && r.error.drawn[1].FillRect?
    ensures r.Success? ==>
      && |r.value| == 5
      && r.value[0].FillRect? && r.value[1].FillRect?
      && r.value[2].DrawText? && r.value[3].DrawText? && r.value[4].DrawText?
      && |r.value[2].text| == 1 && |r.value[3].text| == 6
      && r.value[2].text + r.value[3].text + r.value[4].text == b.data
  {
    if |b.encodedValue| == 0 then Throw(DivideByZero, [])
    else
      var g := Ean13Blocks(b.width, |b.encodedValue|, b.alignment);
      var text := b.data;
      var font := Ean13Font(measure, b, img);
      var dims := FontDimensions(measure, font);
      var labelY := Trunc(img.height as real - dims.height);
      var band := Trunc(dims.height);
      var fills := [FillRect(Rect(g.s2, labelY, g.halfWidth, band)), FillRect(Rect(g.s3, labelY, g.halfWidth, band))];
      var small := SmallOf(font.points);
      var smallDims := FontDimensions(measure, small);
      match Substring(text, 0, 1)
      case None => Throw(SubstringOutOfRange, fills)
      case Some(lead) =>
        var t1 := DrawText(Point(g.s1, Trunc(img.height as real - smallDims.height * 0.9)), HLeft, VTop, small, lead);
        match Substring(text, 1, 6)
        case None => Throw(SubstringOutOfRange, fills + [t1])
        case Some(left) =>
          var t2 := DrawText(Point(g.s2, labelY), HLeft, VTop, font, left);
          match SubstringFrom(text, 7)
          case None => Throw(SubstringOutOfRange, fills + [t1, t2])
          case Some(right) =>
            Success(fills + [t1, t2, DrawText(Point(g.s3 - g.barWidth, labelY), HLeft, VTop, font, right)])
  }

  /**
   * The blocks in closed form: the left half starts three modules after the
   * shift and the right half fifty, each half is 42 modules wide, and the
   * gap between the halves is the 5-module guard.
   */
  lemma Ean13Columns(width: int, modules: int, align: AlignmentPosition)
    requires 0 < modules
    ensures var g := Ean13Blocks(width, modules, align);
      && g.barWidth == BarWidth(width, modules)
      && g.shift == Shift(align, width, modules)
      && g.s1 == g.shift - g.barWidth
      && g.s2 == g.shift + 3 * g.barWidth
      && g.s3 == g.shift + 50 * g.barWidth
      && g.halfWidth == 42 * g.barWidth
      && g.s3 - (g.s2 + g.halfWidth) == 5 * g.barWidth
  {
  }

  /**
   * For a non-negative width and at least 92 modules (EAN-13 has 95), both
   * halves lie inside the barcode width.
   */
  lemma Ean13FillsInside(width: int, modules: int, align: AlignmentPosition)
    requires 0 <= width && 92 <= modules
    ensures var g := Ean13Blocks(width, modules, align);
      0 <= g.s2 && g.s3 + g.halfWidth <= width
  {
    Ean13Columns(width, modules, align);
    var bw := BarWidth(width, modules);
    assert 0 <= bw && 0 <= Shift(align, width, modules) <= Leftover(width, modules);
    assert bw * modules + Leftover(width, modules) == width;
    MonotoneProduct(92, modules, bw);
  }

  /**
   * With at least one pixel per module the three digit groups are drawn
   * strictly left to right.
   */
  lemma Ean13LeftToRight(width: int, modules: int, align: AlignmentPosition)
    requires 0 < modules && 0 < BarWidth(width, modules)
    ensures var g := Ean13Blocks(width, modules, align);
      g.s1 < g.s2 < g.s3 - g.barWidth
  {
    Ean13Columns(width, modules, align);
  }

  /**
   * What a successful EAN-13 layout draws: the fills behind both halves at
   * the band's top, band-high; the digits cut 1/6/rest from the data; the
   * lead digit in the small font at the lead block, nine tenths of the small
   * font's band height above the image bottom; the groups in the label font
   * at the left half and one module before the right half; all text
   * left- and top-aligned.
   */
  lemma Ean13Drawn(measure: Measure, b: Barcode, img: Image)
    requires LabelEan13(measure, b, img).Success?
    ensures 0 < |b.encodedValue|
    ensures var r := LabelEan13(measure, b, img).value;
      var g := Ean13Blocks(b.width, |b.encodedValue|, b.alignment);
      var font := Ean13Font(measure, b, img);
      var band := FontDimensions(measure, font).height;
      var labelY := Trunc(img.height as real - band);
      var small := SmallOf(font.points);
      var smallY := Trunc(img.height as real - FontDimensions(measure, small).height * 0.9);
      && r[0] == FillRect(Rect(g.shift + 3 * g.barWidth, labelY, 42 * g.barWidth, Trunc(band)))
      && r[1] == FillRect(Rect(g.shift + 50 * g.barWidth, labelY, 42 * g.barWidth, Trunc(band)))
      && r[2] == DrawText(Point(g.shift - g.barWidth, smallY), HLeft, VTop, small, b.data[..1])
      && r[3] == DrawText(Point(r[0].rect.x, labelY), HLeft, VTop, font, b.data[1..7])
      && r[4] == DrawText(Point(r[1].rect.x - g.barWidth, labelY), HLeft, VTop, font, b.data[7..])
  {
    Ean13Columns(b.width, |b.encodedValue|, b.alignment);
  }

  /** The worked example: width 350, ten modules, centred. */
  lemma Ean13Example()
    ensures Ean13Blocks(350, 10, Center) == Blocks(35, 0, -35, 105, 1750, 1470)
  {
  }
}

=== FILE: fontfit.dfy ===
/**
 * The font-fit scan: try the label family at sizes 1, 2, ..., 100 and stop
 * at the first size whose measured label exceeds the width or height budget;
 * the chosen size is one below it. An empty label, or a scan that finds no
 * overflow at all, keeps the default size 10. The caller receives the
 * chosen size times the safety factor 0.9.
 */
module FontFit {
  import opened Drawing

  const FirstSize: int := 1
  const LastSize: int := 100
  const DefaultSize: int := 10
  const SafetyFactor: real := 0.9

  /** The label, measured in the family at probe size `size`, exceeds the budget. */
  predicate Overflows(measure: Measure, text: string, size: int, width: int, height: int)
  {
    var bounds := measure(Sized(size as real), text);
    bounds.width > width as real || bounds.height > height as real
  }

  /**
   * The first probe size in `from..LastSize` that overflows, or `LastSize + 1`
   * when none of them does.
   */
  function FirstOverflow(measure: Measure, text: string, width: int, height: int, from: int): (i: int)
    requires FirstSize <= from <= LastSize + 1
    ensures from <= i <= LastSize + 1
    ensures i <= LastSize ==> Overflows(measure, text, i, width, height)
    ensures forall j :: from <= j < i ==> !Overflows(measure, text, j, width, height)
    decreases LastSize + 1 - from
  {
    if from > LastSize then from
    else if Overflows(measure, text, from, width, height) then from
    else FirstOverflow(measure, text, width, height, from + 1)
  }

  /** Some probe size overflows the budget. */
  predicate SomeSizeOverflows(measure: Measure, text: string, width: int, height: int)
  {
    exists i :: FirstSize <= i <= LastSize && Overflows(measure, text, i, width, height)
  }

  /** The whole-number size the scan settles on, before the safety factor. */
  function FitSize(measure: Measure, width: int, height: int, text: string): (k: int)
    ensures |text| == 0 ==> k == DefaultSize
    ensures |text| > 0 && SomeSizeOverflows(measure, text, width, height) ==>
      && FirstSize <= k + 1 <= LastSize
      && Overflows(measure, text, k + 1, width, height)
      && forall j :: FirstSize <= j <= k ==> !Overflows(measure, text, j, width, height)
    ensures |text| > 0 && !SomeSizeOverflows(measure, text, width, height) ==> k == DefaultSize
  {
    if |text| == 0 then DefaultSize
    else
      var i := FirstOverflow(measure, text, width, height, FirstSize);
      if i <= LastSize then i - 1 else DefaultSize
  }

  /**
   * The scan as the source runs it. `size` is the value returned to the
   * caller; the ghost `probes` counts the measurements taken.
   */
  method GetFontsize(measure: Measure, width: int, height: int, text: string)
    returns (size: real, ghost probes: nat)
    ensures size == SafetyFactor * FitSize(measure, width, height, text) as real
    ensures probes <= LastSize
    ensures |text| == 0 ==> probes == 0
    ensures |text| > 0 && !SomeSizeOverflows(measure, text, width, height) ==> probes == LastSize
    ensures |text| > 0 && SomeSizeOverflows(measure, text, width, height) ==>
      probes == FitSize(measure, width, height, text) + 1
  {
    var fontSize := DefaultSize;
    probes := 0;
    if |text| > 0 {
      var i := FirstSize;
      ghost var first := LastSize + 1;
      while i <= LastSize
        invariant FirstSize <= i <= LastSize + 1
        invariant probes == i - FirstSize
        invariant fontSize == DefaultSize
        invariant forall j :: FirstSize <= j < i ==> !Overflows(measure, text, j, width, height)
      {
        var bounds := measure(Sized(i as real), text);
        probes := probes + 1;
        if bounds.width > width as real || bounds.height > height as real {
          assert Overflows(measure, text, i, width, height);
          first := i;
          fontSize := i - 1;
          break;
        }
        i := i + 1;
      }
      assert first == FirstOverflow(measure, text, width, height, FirstSize);
      assert first <= LastSize ==> fontSize == first - 1 && probes == first;
    }
    size := fontSize as real * SafetyFactor;
  }

  /**
   * Boundary tightness: when the scan stops early, the text fits at the
   * chosen size (if it is a probe size at all) and overflows one size up.
   */
  lemma FitIsTight(measure: Measure, width: int, height: int, text: string)
    requires |text| > 0
    requires SomeSizeOverflows(measure, text, width, height)
    ensures var k := FitSize(measure, width, height, text);
      && 0 <= k < LastSize
      && (k >= FirstSize ==> !Overflows(measure, text, k, width, height))
      && Overflows(measure, text, k + 1, width, height)
  {
  }

  /**
   * A text that overflows already at size 1 gets size 0; a text that fits
   * at every size up to 100 gets the default 10, not 100.
   */
  lemma FitEdges(measure: Measure, width: int, height: int, text: string)
    requires |text| > 0
    ensures Overflows(measure, text, FirstSize, width, height) ==>
      FitSize(measure, width, height, text) == 0
    ensures (forall i :: FirstSize <= i <= LastSize ==> !Overflows(measure, text, i, width, height)) ==>
      FitSize(measure, width, height, text) == DefaultSize
  {
  }
}

=== FILE: generic.dfy ===
/**
 * The generic label: one background band across the full image width, at
 * the top or the bottom according to the label position, and the label
 * text drawn once with alignment flags taken from the position.
 */
module Generic {
  import opened DotNet
  import opened Drawing
  import opened Barcodes

  predicate IsTop(p: LabelPosition)
  {
    p == TopLeft || p == TopCenter || p == TopRight
  }

  predicate IsBottom(p: LabelPosition)
  {
    p == BottomLeft || p == BottomCenter || p == BottomRight
  }

  /**
   * The generic layout: the band fill, then the text. The text origin is the
   * image's top-right corner pushed down by the band height, whatever the
   * position; the per-position x coordinate is computed but never used, so
   * it is not part of the model.
   */
  function LabelGeneric(measure: Measure, b: Barcode, img: Image): (r: seq<DrawCmd>)
    ensures |r| == 2 && r[0].FillRect? && r[1].DrawText?
    ensures var band := FontDimensions(measure, LabelFont).height;
      && r[0].rect.x == 0 && r[0].rect.width == img.width
      && r[0].rect.height == Trunc(band)
      && (IsBottom(b.labelPosition) ==> r[0].rect.y == Trunc(img.height as real - band))
      && (!IsBottom(b.labelPosition) ==> r[0].rect.y == 0)
      && r[1].origin == Point(img.width, Trunc(band))
    ensures IsBottom(b.labelPosition) <==> r[1].vAlign == VBottom
    ensures r[1].hAlign == HCenter <==> b.labelPosition in {TopCenter, BottomCenter}
    ensures r[1].hAlign == HRight <==> b.labelPosition in {TopRight, BottomRight}
    ensures r[1].font == LabelFont
    ensures b.alternateLabel.None? ==> r[1].text == b.data
    ensures b.alternateLabel.Some? ==> r[1].text == b.alternateLabel.value
  {
    var dims := FontDimensions(measure, LabelFont);
    var bottom := img.height as real - dims.height;
    var (labelY, hAlign, vAlign) :=
      match b.labelPosition
      case BottomCenter => (bottom, HCenter, VBottom)
      case BottomLeft => (bottom, HLeft, VBottom)
      case BottomRight => (bottom, HRight, VBottom)
      case TopCenter => (0.0, HCenter, VTop)
      case TopLeft => (0.0, HLeft, VTop)
      case TopRight => (0.0, HRight, VTop)
      case UnnamedPosition(_) => (0.0, HLeft, VTop);
    [ FillRect(Rect(0, Trunc(labelY), img.width, Trunc(dims.height))),
      DrawText(Point(img.width, Trunc(dims.height)), hAlign, vAlign, LabelFont, LabelText(b)) ]
  }

  /**
   * With a whole-pixel band height, the band of a bottom position ends
   * exactly at the image's bottom edge and that of a top position starts at
   * its top edge; either way it spans the full width.
   */
  lemma GenericBandTouchesEdge(measure: Measure, b: Barcode, img: Image, band: int)
    requires FontDimensions(measure, LabelFont).height == band as real
    ensures var fill := LabelGeneric(measure, b, img)[0].rect;
      && fill.x == 0 && fill.width == img.width && fill.height == band
      && (IsBottom(b.labelPosition) ==> fill.y + fill.height == img.height)
      && (IsTop(b.labelPosition) ==> fill.y == 0)
  {
    TruncWhole(band);
    TruncWhole(img.height - band);
  }

  /** The band depends on the position and the font only, never on the label text. */
  lemma GenericBandIgnoresText(measure: Measure, b1: Barcode, b2: Barcode, img: Image)
    requires b1.labelPosition == b2.labelPosition
    ensures LabelGeneric(measure, b1, img)[0] == LabelGeneric(measure, b2, img)[0]
  {
  }

  /** The text origin is the same for every position and every label text. */
  lemma GenericOriginFixed(measure: Measure, b1: Barcode, b2: Barcode, img: Image)
    ensures LabelGeneric(measure, b1, img)[1].origin == LabelGeneric(measure, b2, img)[1].origin
  {
  }
}

=== FILE: itf14.dfy ===
/**
 * The ITF-14 label: a background band at the bottom, the label text centred
 * just above it, and a thick separator line across the full width above the
 * text.
 */
module Itf14 {
  import opened DotNet
  import opened Drawing
  import opened Barcodes

  /** The ITF-14 layout: band fill, centred text, then separator line. */
  function LabelItf14(measure: Measure, b: Barcode, img: Image): (r: seq<DrawCmd>)
    ensures |r| == 3 && r[0].FillRect? && r[1].DrawText? && r[2].DrawLine?
    ensures r[0].rect.x == 0 && r[0].rect.width == img.width
    ensures r[0].rect.height == Trunc(FontDimensions(measure, LabelFont).height)
    ensures r[1].hAlign == HCenter && r[1].vAlign == VTop && r[1].font == LabelFont
    ensures b.alternateLabel.None? ==> r[1].text == b.data
    ensures b.alternateLabel.Some? ==> r[1].text == b.alternateLabel.value
    ensures r[2].from == Point(0, r[2].from.y) && r[2].to == Point(img.width, r[2].from.y)
    ensures r[2].thickness * 16.0 == img.height as real
    ensures var band := FontDimensions(measure, LabelFont).height;
      && r[0].rect.y == Trunc(img.height as real - (band - 2.0))
      && r[1].origin == Point(Trunc(img.width as real / 2.0), img.height - Trunc(band) + 1)
      && r[2].from.y == img.height - Trunc(band) - 2
  {
    var dims := FontDimensions(measure, LabelFont);
    var band := Trunc(dims.height);
    var lineY := img.height - band - 2;
    [ FillRect(Rect(0, Trunc(img.height as real - (dims.height - 2.0)), img.width, band)),
      DrawText(Point(Trunc(img.width as real / 2.0), img.height - band + 1), HCenter, VTop, LabelFont, LabelText(b)),
      DrawLine(Point(0, lineY), Point(img.width, lineY), img.height as real / 16.0) ]
  }

  /**
   * With a whole-pixel band height: the fill starts two pixels below the top
   * of the band and so runs two pixels past the image's bottom edge; the
   * text origin is one pixel above the fill and the separator four; the text
   * is centred on the image width to within half a pixel.
   */
  lemma Itf14Stack(measure: Measure, b: Barcode, img: Image, band: int)
    requires FontDimensions(measure, LabelFont).height == band as real
    requires 0 <= img.width
    ensures var r := LabelItf14(measure, b, img);
      var top := r[0].rect.y;
      && top == img.height - band + 2
      && top + r[0].rect.height == img.height + 2
      && r[1].origin.y == top - 1
      && r[2].from.y == top - 4
      && 0 <= img.width - 2 * r[1].origin.x <= 1
  {
    TruncWhole(band);
    TruncWhole(img.height - band + 2);
  }

  /**
   * The fill and the separator depend on the image and the label font only,
   * never on the label text: the band comes from the reference alphabet.
   */
  lemma Itf14BandIgnoresText(measure: Measure, b1: Barcode, b2: Barcode, img: Image)
    ensures LabelItf14(measure, b1, img)[0] == LabelItf14(measure, b2, img)[0]
    ensures LabelItf14(measure, b1, img)[2] == LabelItf14(measure, b2, img)[2]
  {
  }
}

=== FILE: upca.dfy ===
/**
 * The UPC-A label. The first and last digits are drawn in a small font
 * outside the bars; the two groups of five digits are drawn in the fitted
 * label font on background fills that cover the two 34-module halves. The
 * horizontal layout carries two hand-tuned biases: every block is moved
 * three pixels right, and each five-digit group five more.
 */
module UpcA {
  import opened Wrappers
  import opened DotNet
  import opened Drawing
  import opened Barcodes
  import opened FontFit
  import opened BarGeometry

  const ShiftBias: int := 3        // added to the alignment shift
  const GroupNudge: int := 5       // added to each five-digit group's origin
  const LeadModules: int := 12     // from the lead digit to the left half
  const HalfModules: int := 34     // each fill
  const GuardModules: int := 5     // centre guard between the halves
  const TrailModules: int := 8     // from the right half's end to the last digit
  const DataLength: int := 11      // characters needed before the last digit can be cut

  /** The horizontal layout: bar width, biased shift and the four block starts. */
  datatype Blocks = Blocks(barWidth: int, shift: int, s1: int, s2: int, s3: int, s4: int, halfWidth: int)

  function UpcABlocks(width: int, modules: int, align: AlignmentPosition): (g: Blocks)
    requires 0 < modules
  {
    var bw := BarWidth(width, modules);
    var halfBar := Trunc(bw as real * 0.5);
    var shift := Shift(align, width, modules) + ShiftBias;
    var w2 := bw * HalfModules;
    var s1 := shift - bw;
    var s2 := s1 + bw * LeadModules;
    var s3 := s2 + w2 + bw * GuardModules;
    Blocks(bw, shift, s1, s2, s3, s3 + w2 + bw * TrailModules - halfBar, w2)
  }

  /**
   * The label font: the family at the size fitted for the data in nine
   * tenths of the whole-module width (truncated).
   */
  function UpcAFont(measure: Measure, b: Barcode, img: Image): (f: Font)
    requires 0 < |b.encodedValue|
    ensures f == Sized(SafetyFactor * FitSize(measure, Div(9 * (BarWidth(b.width, |b.encodedValue|) * |b.encodedValue|), 10),
                                              img.height, b.data) as real)
    ensures 0 <= b.width ==>
      f == Sized(SafetyFactor * FitSize(measure, (9 * (BarWidth(b.width, |b.encodedValue|) * |b.encodedValue|)) / 10,
                                        img.height, b.data) as real)
  {
    var whole := WholeModuleWidth(b.width, |b.encodedValue|);
    NineTenthsTruncates(whole);
    WholeModuleWidthNonNegative(b.width, |b.encodedValue|);
    var desired := Trunc(whole as real * 0.9);
    Sized(SafetyFactor * FitSize(measure, desired, img.height, b.data) as real)
  }

  /** A non-negative width leaves a non-negative whole-module width. */
  lemma WholeModuleWidthNonNegative(width: int, modules: int)
    requires 0 < modules
    ensures 0 <= width ==> 0 <= WholeModuleWidth(width, modules)
  {
    if 0 <= width {
      MonotoneProduct(0, BarWidth(width, modules), modules);
    }
  }

  /** Truncating nine tenths of a whole number, as a real product, is C# `9 * w / 10`. */
  lemma NineTenthsTruncates(w: int)
    ensures Trunc(w as real * 0.9) == Div(9 * w, 10)
  {
    var q := Div(9 * w, 10);
    if 0 <= w {
      assert q * 10 <= 9 * w < q * 10 + 10;
      assert q as real <= w as real * 0.9 < q as real + 1.0;
    } else {
      assert q * 10 - 10 < 9 * w <= q * 10;
      assert q as real - 1.0 < w as real * 0.9 <= q as real;
    }
  }

  /**
   * The UPC-A layout: two fills, then the first digit, the two five-digit
   * groups and the last digit. It succeeds exactly when there is at least
   * one module and the data has at least eleven characters; otherwise it
   * throws after the draws that precede the failing step.
   */
  function LabelUpcA(measure: Measure, b: Barcode, img: Image): (r: Outcome)
    ensures r.Success? <==> 0 < |b.encodedValue| && DataLength <= |b.data|
    ensures r.Failure? ==> r.error.message == ErrorMessage
    ensures |b.encodedValue| == 0 ==> r.Failure? && r.error.cause == DivideByZero && r.error.drawn == []
    ensures 0 < |b.encodedValue| && |b.data| < DataLength ==>
      && r.Failure? && r.error.cause == SubstringOutOfRange
      && |r.error.drawn| == (if |b.data| == 0 then 2 else if |b.data| < 6 then 3 else 4)
      && r.error.drawn[0].FillRect? && r.error.drawn[1].FillRect?
    ensures r.Success? ==>
      && |r.value| == 6
      && r.value[0].FillRect? && r.value[1].FillRect?
      && r.value[2].DrawText? && r.value[3].DrawText? && r.value[4].DrawText? && r.value[5].DrawText?
      && |r.value[2].text| == 1 && |r.value[3].text| == 5 && |r.value[4].text| == 5
      && r.value[2].text + r.value[3].text + r.value[4].text + r.value[5].text == b.data
  {
    if |b.encodedValue| == 0 then Throw(DivideByZero, [])
    else
      var g := UpcABlocks(b.width, |b.encodedValue|, b.alignment);
      var text := b.data;
      var font := UpcAFont(measure, b, img);
      var dims := FontDimensions(measure, font);
      var labelY := Trunc(img.height as real - dims.height);
      var band := Trunc(dims.height);
      var fills := [FillRect(Rect(g.s2, labelY, g.halfWidth, band)), FillRect(Rect(g.s3, labelY, g.halfWidth, band))];
      var small := SmallOf(font.points);
      var smallY := img.height - Trunc(FontDimensions(measure, small).height);
      match Substring(text, 0, 1)
      case None => Throw(SubstringOutOfRange, fills)
      case Some(first) =>
        var t1 := DrawText(Point(g.s1, smallY), HLeft, VTop, small, first);
        match Substring(text, 1, 5)
        case None => Throw(SubstringOutOfRange, fills + [t1])
        case Some(left) =>
          var t2 := DrawText(Point(g.s2 - g.barWidth + GroupNudge, labelY), HLeft, VTop, font, left);
          match Substring(text, 6, 5)
          case None => Throw(SubstringOutOfRange, fills + [t1, t2])
          case Some(right) =>
            var t3 := DrawText(Point(g.s3 - g.barWidth + GroupNudge, labelY), HLeft, VTop, font, right);
            match SubstringFrom(text, 11)
            case None => Throw(SubstringOutOfRange, fills + [t1, t2, t3])
            case Some(last) =>
              Success(fills + [t1, t2, t3, DrawText(Point(g.s4, smallY), HLeft, VTop, small, last)])
  }

  /**
   * The blocks in closed form: relative to the biased shift, the left half
   * starts 11 modules in and the right half 50, each half is 34 modules
   * wide with the 5-module guard between them, and the last digit sits 92
   * modules in less half a module (truncated).
   */
  lemma UpcAColumns(width: int, modules: int, align: AlignmentPosition)
    requires 0 < modules
    ensures var g := UpcABlocks(width, modules, align);
      && g.barWidth == BarWidth(width, modules)
      && g.shift == Shift(align, width, modules) + 3
      && g.s1 == g.shift - g.barWidth
      && g.s2 == g.shift + 11 * g.barWidth
      && g.s3 == g.shift + 50 * g.barWidth
      && g.halfWidth == 34 * g.barWidth
      && g.s3 - (g.s2 + g.halfWidth) == 5 * g.barWidth
      && g.s4 == g.shift + 92 * g.barWidth - Div(g.barWidth, 2)
  {
    HalfTruncates(BarWidth(width, modules));
  }

  /**
   * For a non-negative width, at least 87 modules and at least one pixel
   * per module, both halves lie inside the barcode width.
   */
  lemma UpcAFillsInside(width: int, modules: int, align: AlignmentPosition)
    requires 87 <= modules <= width
    ensures var g := UpcABlocks(width, modules, align);
      0 <= g.s2 && g.s3 + g.halfWidth <= width
  {
    UpcAColumns(width, modules, align);
    var bw := BarWidth(width, modules);
    assert bw == width / modules;
    AtLeastOne(width, modules);
    assert bw * modules + Leftover(width, modules) == width;
    MonotoneProduct(87, modules, bw);
  }

  /**
   * With at least one pixel per module the four digit groups are drawn
   * strictly left to right.
   */
  lemma UpcALeftToRight(width: int, modules: int, align: AlignmentPosition)
    requires 0 < modules && 0 < BarWidth(width, modules)
    ensures var g := UpcABlocks(width, modules, align);
      g.s1 < g.s2 - g.barWidth + GroupNudge < g.s3 - g.barWidth + GroupNudge < g.s4
  {
    UpcAColumns(width, modules, align);
  }

  lemma AtLeastOne(a: int, b: int)
    requires 0 < b <= a
    ensures 1 <= a / b
  {
  }

  /** Truncating half of a whole number, as a real product, is C# integer halving. */
  lemma HalfTruncates(n: int)
    ensures Trunc(n as real * 0.5) == Div(n, 2)
  {
  }

  /**
   * What a successful UPC-A layout draws: the fills behind both halves at
   * the band's top, band-high; the digits cut 1/5/5/rest from the data; the
   * first and last digits in the small font, bottom-aligned on the small
   * font's height, the groups in the label font one module before each
   * half plus the five-pixel nudge.
   */
  lemma UpcADrawn(measure: Measure, b: Barcode, img: Image)
    requires LabelUpcA(measure, b, img).Success?
    ensures 0 < |b.encodedValue|
    ensures var r := LabelUpcA(measure, b, img).value;
      var g := UpcABlocks(b.width, |b.encodedValue|, b.alignment);
      var font := UpcAFont(measure, b, img);
      var band := FontDimensions(measure, font).height;
      var labelY := Trunc(img.height as real - band);
      var smallY := img.height - Trunc(FontDimensions(measure, SmallOf(font.points)).height);
      && r[0] == FillRect(Rect(g.shift + 11 * g.barWidth, labelY, 34 * g.barWidth, Trunc(band)))
      && r[1] == FillRect(Rect(g.shift + 50 * g.barWidth, labelY, 34 * g.barWidth, Trunc(band)))
      && r[2] == DrawText(Point(g.shift - g.barWidth, smallY), HLeft, VTop, SmallOf(font.points), b.data[..1])
      && r[3] == DrawText(Point(r[0].rect.x - g.barWidth + 5, labelY), HLeft, VTop, font, b.data[1..6])
      && r[4] == DrawText(Point(r[1].rect.x - g.barWidth + 5, labelY), HLeft, VTop, font, b.data[6..11])
      && r[5] == DrawText(Point(g.s4, smallY), HLeft, VTop, SmallOf(font.points), b.data[11..])
  {
    UpcAColumns(b.width, |b.encodedValue|, b.alignment);
  }
}

=== FILE: wrappers.dfy ===
/** Option and Result types used throughout the label model. */
module Wrappers {

  /** A value that may be missing (a C# `null` reference or a failed lookup). */
  datatype Option<+T> = None | Some(value: T)

  /** The outcome of a call that either returns a value or throws. */
  datatype Result<+R, +E> = Success(value: R) | Failure(error: E)
}
